=== FILE: README.md ===
# File-analysis bucketing, modelled in Dafny

Two revisions of a small command-line script walk a directory tree and
report how many files, and how many bytes, fall into each bucket of one
chosen dimension: size, creation/modification/access age (revision 3) or
calendar date (revision 2), owner uid or group gid. This project models the part of both revisions that does not
touch the operating system:

- `categorize_files`, the loop that folds file records into a dictionary
  from bucket label to `{'count', 'bytes'}` (module `Buckets`, used by
  both revisions);
- the label rules: whole-day age labels (`"<n> days old"` or `"Today"`)
  and decimal identity labels in revision 3, the `<nK` / `<nM` size label
  and raw-value keys in revision 2 (modules `AnalysisV3`, `AnalysisV2`,
  with Python's `str` of a non-negative integer in `Decimal`);
- the report rows: the console table sorted by key (module `Rows`, with
  Python's string order in `StringOrder`), revision 3's CSV rows in
  dictionary (first-insertion) order, and revision 2's access-date CSV
  rows sorted by date;
- the choice of analysis from the command-line switches and revision 3's
  CSV file name.

A Python dictionary is modelled as a sequence of buckets in insertion
order (`Buckets.Table`); `Buckets.ToMap` forgets the order when only the
contents matter. File records are given values: revision 3 records carry
whole-day ages as integers (negative for timestamps in the future),
revision 2 records carry calendar dates as day ordinals.

Age labels are per day in revision 3 and size labels per KiB / per MiB in
revision 2; every other key is the field's exact value (revision 3's size,
uid and gid as decimal text, revision 2's dates, uid and gid as raw values).
Revision 3 writes its CSV rows in dictionary (insertion) order; owners
are the numeric uid and gid; a negative age, from a timestamp in the
future, is labelled `"Today"` like an age of zero.

## Model

| member | source | states |
|---|---|---|
| `Buckets.Add` | file_analysis_v3.py:49-52 | one loop step appends the key to the dictionary only if it is new, and adds one to the total count and the record's size to the total bytes |
| `Buckets.AddLookup` | file_analysis_v3.py:49-52 | one loop step bumps the count of the record's bucket by one and its bytes by the size, starting from zero totals for a new key, and changes no other bucket |
| `Buckets.AddWellFormed` | file_analysis_v3.py:49-51 | one loop step keeps keys distinct and every bucket's count at least one |
| `Buckets.Accumulate` | file_analysis_v3.py:40-53 | the fold's buckets are well formed, exist exactly for the keys that occur, hold per key the number and summed size of the items under it, and total the item count and summed size |
| `Buckets.CategorizeCounts` | file_analysis_v2.py:37-45 | in `Buckets.Categorize`, each record increments exactly one bucket: the count under a key is the number of record positions classified under it, and the key exists iff some record maps to it |
| `Buckets.CountBytesPermutation` | file_analysis_v3.py:42-52 | per-key count and bytes are the same for any reordering of the items |
| `Buckets.AccumulatePermutation` | file_analysis_v3.py:41-53 | the label-to-totals mapping, insertion order ignored, is the same for any reordering of the items |
| `Buckets.CategorizePermutation` | file_analysis_v2.py:37-45 | classifying then folding gives the same mapping for any reordering of the records |
| `Buckets.ClassifyPermutation` | file_analysis_v2.py:39-40 | a reordering of the records yields a reordering of their classified items |
| `Buckets.CountIsIndexSetSize` | file_analysis_v3.py:51 | the count kept for a key equals the number of positions holding that key |
| `Buckets.AccumulateFirstSeenOrder` | file_analysis_v3.py:49-50 | dictionary keys come out in the order of their first occurrence in the input |
| `Buckets.AccumulatePair` | file_analysis_v3.py:49-52 | two records with different keys give two buckets of count one, the first record's first |
| `Buckets.MemberIffLookup` | file_analysis_v3.py:65 | in a dictionary with distinct keys a bucket is listed iff its key is present with those totals |
| `Buckets.SameContentsSameBuckets` | file_analysis_v3.py:57 | two dictionaries with equal contents list the same `(key, value)` items |
| `Buckets.ClassifyKeepsSizes` | file_analysis_v2.py:39-44 | when each classified item keeps its record's size, the items' sizes add up to the records' total size |
| `Buckets.FirstIndex` | file_analysis_v3.py:49 | the first position of a key is within the input exactly when the key occurs, holds that key, and no earlier position does |
| `Decimal.NatToString` | file_analysis_v3.py:43 | `str` of a non-negative integer is a non-empty digit string without a leading zero that reads back as the integer |
| `Decimal.CanonicalNumeralIsNatToString` | file_analysis_v3.py:43 | every digit string without a leading zero is what `str` prints for its value, so such a numeral pins the printed text exactly |
| `Decimal.NatToStringInjective` | file_analysis_v3.py:43 | two integers print the same exactly when they are equal |
| `StringOrder.LessIsStrictTotalOrder` | file_analysis_v3.py:57 | `Less`, code-point lexicographic string comparison, is irreflexive, transitive and total |
| `StringOrder.LessIffPrefixOrFirstDifference` | file_analysis_v3.py:57 | `Less`, the model of Python's `<` on strings, holds iff the first string is a proper prefix of the second or is smaller at the first position where they differ |
| `StringOrder.LessTransitive` | file_analysis_v3.py:57 | string comparison is transitive |
| `StringOrder.LessConnected` | file_analysis_v3.py:57 | any two distinct strings are ordered one way or the other |
| `Rows.Insert` | file_analysis_v2.py:48 | inserting a row into the sorted rows keeps every row and adds exactly that one |
| `Rows.InsertAscending` | file_analysis_v2.py:48 | inserting a row with a new key into ascending rows keeps them ascending |
| `Rows.SortByKey` | file_analysis_v2.py:48 | sorting keeps exactly the dictionary's items, each once |
| `Rows.SortByKeyAscending` | file_analysis_v3.py:57 | under a strict total order the sorted keys of a dictionary strictly ascend |
| `Rows.AscendingUnique` | file_analysis_v3.py:57 | two strictly ascending row lists holding the same rows are equal |
| `Rows.SortedRowsDependOnContentsOnly` | file_analysis_v2.py:48 | dictionaries with the same contents sort to the same rows, whatever their insertion order |
| `AnalysisV3.AgeLabel` | file_analysis_v3.py:44-46 | the label is `"Today"` iff the age is at most zero (future timestamps included); otherwise it is digits without a leading zero followed by `" days old"`, and the digits read back as the age |
| `AnalysisV3.Label` | file_analysis_v3.py:43-48 | for an age key the label is `"Today"` iff the age is at most zero, and otherwise the age's numeral without a leading zero followed by `" days old"`; for size, uid and gid it is a digit string without a leading zero that reads back as the value |
| `AnalysisV3.AgeLabelsAgree` | file_analysis_v3.py:46 | two ages share a label iff both are at most zero or they are equal, so distinct positive ages give distinct labels |
| `AnalysisV3.SameBucket` | file_analysis_v3.py:43-48 | two records get the same `Label`, so share a bucket, iff, for an age key, both ages are at most zero or equal, and otherwise their size, uid or gid values are equal |
| `AnalysisV3.Categorize` | file_analysis_v3.py:40-53 | one bucket per label some record has, each with count at least one; counts add up to the number of records and bytes to their total size |
| `AnalysisV3.ClassifiedLabels` | file_analysis_v3.py:43-49 | a label is among the classified items iff some record carries it |
| `AnalysisV3.BucketCounts` | file_analysis_v3.py:42-51 | the bucket of a label counts exactly the records carrying that label, each once |
| `AnalysisV3.TodayCounts` | file_analysis_v3.py:44-46 | for an age analysis, the `"Today"` bucket counts the records aged zero days or less |
| `AnalysisV3.CategorizeOrderIndependent` | file_analysis_v3.py:41-53 | any reordering of the records gives the same label-to-totals mapping |
| `AnalysisV3.CategorizeFirstSeenOrder` | file_analysis_v3.py:49-50 | buckets are listed in the order their labels first occur among the records |
| `AnalysisV3.DisplayRows` | file_analysis_v3.py:55-58 | the console table has every bucket exactly once with labels strictly ascending |
| `AnalysisV3.DisplayOrderIndependent` | file_analysis_v3.py:57 | the console table is the same for any reordering of the records |
| `AnalysisV3.CsvRoundTrip` | file_analysis_v3.py:65-66 | reading the CSV body back gives the dictionary it was written from, bucket for bucket in the same order |
| `AnalysisV3.CsvRows` | file_analysis_v3.py:65-66 | one three-cell row per bucket in dictionary order: the label, then numerals without a leading zero (as `str` writes them) that read back as its count and its bytes |
| `AnalysisV3.CsvDependsOnOrder` | file_analysis_v3.py:65 | the CSV rows are not sorted: two files of sizes 1 and 2 found in opposite orders give different row orders |
| `AnalysisV3.SelectKey` | file_analysis_v3.py:72 | the selected field is the first switch that is on in the order size, creation, modification, access, uid, gid; none iff all six are off |
| `AnalysisV3.CsvFilenames` | file_analysis_v3.py:79 | the CSV file name ends in `_data.csv`, and distinct fields get distinct file names |
| `AnalysisV3.Run` | file_analysis_v3.py:69-82 | no report iff no analysis switch is on (the help message printed then is left out with the rest of the printing); a CSV file iff one is on and `--outputcsv` is set, named after the field, with header `Category,Count,Bytes` and one row per bucket in dictionary order whose count and bytes cells are `str` of the totals and read back to the dictionary; otherwise the console header and the ascending rows of the dictionary |
| `AnalysisV2.SizeLabel` | file_analysis_v2.py:56 | the label is `<`, then digits with no leading zero unless the number is 0, then `K` below 1 MiB or `M` from 1 MiB up, and the digits read back as the size in whole KiB or whole MiB |
| `AnalysisV2.SizeLabelsAgree` | file_analysis_v2.py:56 | two sizes share a label iff both are below 1 MiB in the same KiB block or both at least 1 MiB in the same MiB block |
| `AnalysisV2.ClassifiedKeys` | file_analysis_v2.py:39-41 | a key is among the classified items iff some record yields it |
| `AnalysisV2.Categorize` | file_analysis_v2.py:37-45 | with or without a bucket function, the keys are exactly the images of the records, each bucket counts at least one record, counts add up to the number of records and bytes to their total size |
| `AnalysisV2.SameKey` | file_analysis_v2.py:40 | two records share a key iff, without a bucket function, their field values are equal, and with one, it makes the same text of both values |
| `AnalysisV2.KeyKinds` | file_analysis_v2.py:40 | every key of a run is a raw value iff there is no bucket function, and text otherwise, so one run never mixes kinds |
| `AnalysisV2.GroupByValue` | file_analysis_v2.py:40 | without a bucket function a value is a key iff some record carries it, and its count is the number of records carrying it |
| `AnalysisV2.CategorizeOrderIndependent` | file_analysis_v2.py:37-45 | any reordering of the records gives the same key-to-totals mapping |
| `AnalysisV2.KeyLessIsStrictTotalOrder` | file_analysis_v2.py:48 | `KeyLess`, the comparison of keys (values by magnitude, text by code points), is a strict total order |
| `AnalysisV2.SortedRows` | file_analysis_v2.py:47-49 | the sorted rows hold every bucket exactly once with keys strictly ascending |
| `AnalysisV2.SortedRowsOrderIndependent` | file_analysis_v2.py:48 | the sorted rows are the same for any reordering of the records |
| `AnalysisV2.Choose` | file_analysis_v2.py:55-64 | the analysis is the first switch on in the order size, creation, modification, access, uid, gid, access-CSV; none iff all are off, so the access-CSV report runs only when no other switch is on |
| `AnalysisV2.FieldOf` | file_analysis_v2.py:55-64 | the field read is the access time exactly for the access analysis and the access-CSV report |
| `AnalysisV2.AnalysisSameKey` | file_analysis_v2.py:55-64 | under the chosen analysis two records share a key iff their sizes lie in the same KiB block below 1 MiB or the same MiB block from 1 MiB up (size analysis), or the field it reads holds the same date or id (every other analysis) |
| `AnalysisV2.AccessReportGroupsLikeAccess` | file_analysis_v2.py:57-64 | the access-CSV report groups the records exactly as the access analysis does |
| `AnalysisV2.Run` | file_analysis_v2.py:51-74 | the failed run iff no switch is on; the access-CSV report iff that is the chosen analysis, written to `access_times.csv` with header `date,count,bytes` and rows ascending by date, one per access-date bucket; otherwise the chosen analysis' buckets in ascending key order |

## Left out

- Directory walking and metadata reads (`os.walk`, `os.stat`, `os.path.join`, file_analysis_v3.py:20-38, file_analysis_v2.py:19-35): filesystem I/O; records are inputs.
- The clock and timestamp conversion (`datetime.now`, `fromtimestamp`, `.days`, `.date()`): wall-clock, floating-point and time-zone behaviour; revision 3 ages are given as integers and revision 2 dates as day ordinals.
- Argument parsing (`parse_args`): a library wrapper; only the resulting boolean switches are modelled.
- Printing, column padding, file opening and `csv.DictWriter` quoting: only the header and the ordered row sequences are modelled, with numbers as their decimal text in revision 3's CSV cells and as totals elsewhere.
- The `str` then `int` round trip of a day count in revision 3 (file_analysis_v3.py:43-45) is taken to be the identity on integers.
- Revision 2 with no switch on raises an error for the unbound `buckets` (file_analysis_v2.py:74); it is modelled as the `Unbound` outcome, not as an exception.
- Revision 3 parses `--accesscsv` but never reads it; `AnalysisV3.SelectKey` ignores that switch accordingly.
- `AnalysisV2.KeyLess` orders numbers before text only to be total; one run's keys are all of one kind, so that case never arises in the program, where comparing the two would raise an error.
- Revision 2's console category for the creation, modification and access analyses: `f"{key:<20}"` on a `datetime.date` (file_analysis_v2.py:49) goes through `strftime("<20")` and prints the literal text `<20` rather than the date; the model's console rows carry the date keys themselves, since the printing is not modelled.
- Revision 3 records carry the file name (`name`) and the full joined path (`path`, file_analysis_v3.py:25,29), but no bucket rule reads either.

=== FILE: analysis_v2.dfy ===
/**
  Revision 2 of the analysis script: records carry calendar dates, the
  dictionary key is either the raw field value or the text a bucket
  function makes of it, every report is sorted by key, and the access-date
  CSV report is a switch of its own.
 */
module AnalysisV2 {
  import opened Wrappers
  import opened Decimal
  import opened Order
  import opened Buckets
  import opened Rows
  import StringOrder

  /**
    The metadata kept per file. A date is the calendar day of a timestamp,
    given as its proleptic Gregorian ordinal (0001-01-01 is day 1), so dates
    compare as the days they name.
   */
  datatype FileRecord = FileRecord(
    name: string,
    size: nat,
    creationDate: nat,
    modificationDate: nat,
    accessDate: nat,
    uid: nat,
    gid: nat)

  /** The record field an analysis reads. */
  datatype Field = Size | CreationTime | ModificationTime | AccessTime | Uid | Gid

  function FieldValue(r: FileRecord, field: Field): nat {
    match field
    case Size => r.size
    case CreationTime => r.creationDate
    case ModificationTime => r.modificationDate
    case AccessTime => r.accessDate
    case Uid => r.uid
    case Gid => r.gid
  }

  /**
    A dictionary key: the raw field value when no bucket function is given,
    otherwise the text the bucket function returns.
   */
  datatype Key = Raw(value: nat) | Text(text: string)

  // ----- The size bucket function -----

  const KiB: nat := 1024
  const MiB: nat := 1048576

  /**
    The size label: `<` followed by the size in whole KiB and `K` below one
    MiB, or in whole MiB and `M` from one MiB up; the number reads back from
    the text between the two.
   */
  function SizeLabel(x: nat): (text: string)
    ensures |text| >= 3 && text[0] == '<'
    ensures text[|text| - 1] == if x < MiB then 'K' else 'M'
    ensures IsCanonicalNumeral(text[1..|text| - 1])
    ensures DigitsValue(text[1..|text| - 1]) == if x < MiB then x / KiB else x / MiB
  {
    var digits := NatToString(if x < MiB then x / KiB else x / MiB);
    var text := "<" + digits + (if x < MiB then "K" else "M");
    assert text[1..|text| - 1] == digits;
    text
  }

  /**
    Both sizes are below one MiB and lie in the same KiB block, or both are
    at least one MiB and lie in the same MiB block.
   */
  predicate SameSizeBlock(x: nat, y: nat) {
    if x < MiB then y < MiB && x / KiB == y / KiB
    else y >= MiB && x / MiB == y / MiB
  }

  /** Sizes share a label exactly when they lie in the same size block. */
  lemma SizeLabelsAgree(x: nat, y: nat)
    ensures SizeLabel(x) == SizeLabel(y) <==> SameSizeBlock(x, y)
  {
    var lx, ly := SizeLabel(x), SizeLabel(y);
    if lx == ly {
      assert lx[1..|lx| - 1] == ly[1..|ly| - 1];
    }
  }

  // ----- Categorisation -----

  /** The key a record is counted under, with or without a bucket function. */
  function BucketKey(r: FileRecord, field: Field, bucketFunc: Option<nat -> string>): (k: Key)
    ensures k.Raw? <==> bucketFunc.None?
    ensures k.Raw? ==> k.value == FieldValue(r, field)
    ensures k.Text? ==> k.text == bucketFunc.value(FieldValue(r, field))
  {
    match bucketFunc
    case None => Raw(FieldValue(r, field))
    case Some(f) => Text(f(FieldValue(r, field)))
  }

  /**
    Two records share a key exactly when their field values are equal (no
    bucket function) or the bucket function makes the same text of them.
   */
  lemma SameKey(r1: FileRecord, r2: FileRecord, field: Field, bucketFunc: Option<nat -> string>)
    ensures BucketKey(r1, field, bucketFunc) == BucketKey(r2, field, bucketFunc) <==>
      match bucketFunc
      case None => FieldValue(r1, field) == FieldValue(r2, field)
      case Some(f) => f(FieldValue(r1, field)) == f(FieldValue(r2, field))
  {
  }

  function Classification(field: Field, bucketFunc: Option<nat -> string>): FileRecord -> Item<Key> {
    r => Item(BucketKey(r, field, bucketFunc), r.size)
  }

  function RecordSize(r: FileRecord): nat {
    r.size
  }

  /** A key occurs among the classified records exactly when some record maps to it. */
  lemma ClassifiedKeys(records: seq<FileRecord>, field: Field, bucketFunc: Option<nat -> string>)
    ensures forall k :: k in Labels(Classify(records, Classification(field, bucketFunc))) <==>
      exists i :: 0 <= i < |records| && BucketKey(records[i], field, bucketFunc) == k
  {
    var items := Classify(records, Classification(field, bucketFunc));
    forall k
      ensures k in Labels(items) <==> exists i :: 0 <= i < |records| && BucketKey(records[i], field, bucketFunc) == k
    {
      if k in Labels(items) {
        var i :| 0 <= i < |items| && Labels(items)[i] == k;
        assert BucketKey(records[i], field, bucketFunc) == k;
      }
      if exists i :: 0 <= i < |records| && BucketKey(records[i], field, bucketFunc) == k {
        var i :| 0 <= i < |records| && BucketKey(records[i], field, bucketFunc) == k;
        assert Labels(items)[i] == k;
      }
    }
  }

  /**
    `categorize_files`: the keys are exactly the images of the records under
    the key function, each bucket counts at least one record, the counts add
    up to the number of records and the bytes to their total size.
   */
  function Categorize(records: seq<FileRecord>, field: Field, bucketFunc: Option<nat -> string>): (buckets: Table<Key>)
    ensures WellFormed(buckets)
    ensures forall k :: k in Keys(buckets) <==>
      exists i :: 0 <= i < |records| && BucketKey(records[i], field, bucketFunc) == k
    ensures TotalCount(buckets) == |records|
    ensures TotalBytes(buckets) == TotalSize(records, RecordSize)
  {
    ClassifyKeepsSizes(records, Classification(field, bucketFunc), RecordSize);
    ClassifiedKeys(records, field, bucketFunc);
    Buckets.Categorize(records, Classification(field, bucketFunc))
  }

  /** Positions of the records whose field holds `v`. */
  function WithValue(records: seq<FileRecord>, field: Field, v: nat): set<int> {
    set i | 0 <= i < |records| && FieldValue(records[i], field) == v
  }

  /** Keys are raw values exactly when no bucket function is given, and text otherwise. */
  lemma KeyKinds(records: seq<FileRecord>, field: Field, bucketFunc: Option<nat -> string>)
    ensures forall k :: k in Keys(Categorize(records, field, bucketFunc)) ==> (k.Raw? <==> bucketFunc.None?)
  {
  }

  /**
    Without a bucket function `categorize_files` groups by equality: a raw
    value is a key exactly when some record carries it, and its count is the
    number of records carrying it.
   */
  lemma GroupByValue(records: seq<FileRecord>, field: Field, v: nat)
    ensures Raw(v) in Keys(Categorize(records, field, None)) <==>
      exists i :: 0 <= i < |records| && FieldValue(records[i], field) == v
    ensures Lookup(Categorize(records, field, None), Raw(v)).count == |WithValue(records, field, v)|
  {
    var classify := Classification(field, None);
    CategorizeCounts(records, classify, Raw(v));
    assert Categorize(records, field, None) == Buckets.Categorize(records, classify);
    assert Positions(records, classify, Raw(v)) == WithValue(records, field, v);
    if exists i :: 0 <= i < |records| && FieldValue(records[i], field) == v {
      var i :| 0 <= i < |records| && FieldValue(records[i], field) == v;
      assert classify(records[i]).key == Raw(v);
    }
  }

  /** Reordering the records leaves the key-to-totals mapping unchanged. */
  lemma CategorizeOrderIndependent(a: seq<FileRecord>, b: seq<FileRecord>, field: Field, bucketFunc: Option<nat -> string>)
    requires multiset(a) == multiset(b)
    ensures ToMap(Categorize(a, field, bucketFunc)) == ToMap(Categorize(b, field, bucketFunc))
  {
    CategorizePermutation(a, b, Classification(field, bucketFunc));
  }

  // ----- Sorted rows -----

  /**
    Python's ordering of the keys of one dictionary: numbers and dates by
    value, text by code points. Keys of one run are all of one kind (see
    `GroupByValue`); raw values are put first only to make the order total.
   */
  predicate KeyLess(a: Key, b: Key) {
    match (a, b)
    case (Raw(x), Raw(y)) => x < y
    case (Text(s), Text(t)) => StringOrder.Less(s, t)
    case (Raw(_), Text(_)) => true
    case (Text(_), Raw(_)) => false
  }

  lemma KeyLessIsStrictTotalOrder()
    ensures StrictTotalOrder(KeyLess)
  {
    StringOrder.LessIsStrictTotalOrder();
    forall x: Key
      ensures !KeyLess(x, x)
    {
      if x.Text? {
        StringOrder.LessIrreflexive(x.text);
      }
    }
    forall x: Key, y: Key, z: Key | KeyLess(x, y) && KeyLess(y, z)
      ensures KeyLess(x, z)
    {
      if x.Text? && y.Text? && z.Text? {
        StringOrder.LessTransitive(x.text, y.text, z.text);
      }
    }
    forall x: Key, y: Key | x != y
      ensures KeyLess(x, y) || KeyLess(y, x)
    {
      if x.Text? && y.Text? {
        StringOrder.LessConnected(x.text, y.text);
      }
    }
  }

  /** `sorted(buckets.items())`: every bucket once, keys strictly ascending. */
  function SortedRows(buckets: Table<Key>): (rows: Table<Key>)
    requires DistinctKeys(buckets)
    ensures multiset(rows) == multiset(buckets)
    ensures Ascending(rows, KeyLess)
  {
    KeyLessIsStrictTotalOrder();
    SortByKeyAscending(buckets, KeyLess);
    SortByKey(buckets, KeyLess)
  }

  /** The sorted rows do not depend on the order in which files were found. */
  lemma SortedRowsOrderIndependent(a: seq<FileRecord>, b: seq<FileRecord>, field: Field, bucketFunc: Option<nat -> string>)
    requires multiset(a) == multiset(b)
    ensures SortedRows(Categorize(a, field, bucketFunc)) == SortedRows(Categorize(b, field, bucketFunc))
  {
    CategorizeOrderIndependent(a, b, field, bucketFunc);
    KeyLessIsStrictTotalOrder();
    SortedRowsDependOnContentsOnly(Categorize(a, field, bucketFunc), Categorize(b, field, bucketFunc), KeyLess);
  }

  // ----- Command line -----

  /** The boolean command-line switches after argument parsing. */
  datatype Flags = Flags(
    size: bool,
    creation: bool,
    modification: bool,
    access: bool,
    accessCsv: bool,
    uid: bool,
    gid: bool)

  /** The analyses `main` can dispatch to. */
  datatype Analysis = BySize | ByCreation | ByModification | ByAccess | ByUid | ByGid | AccessCsvReport

  function FlagFor(flags: Flags, a: Analysis): bool {
    match a
    case BySize => flags.size
    case ByCreation => flags.creation
    case ByModification => flags.modification
    case ByAccess => flags.access
    case ByUid => flags.uid
    case ByGid => flags.gid
    case AccessCsvReport => flags.accessCsv
  }

  /** Overall precedence of the switches in `main`'s chain of tests. */
  function Rank(a: Analysis): nat {
    match a
    case BySize => 0
    case ByCreation => 1
    case ByModification => 2
    case ByAccess => 3
    case ByUid => 4
    case ByGid => 5
    case AccessCsvReport => 6
  }

  /**
    `main`'s dispatch: size first, then the date switches (creation before
    modification before access), then uid before gid, and the access CSV
    report only when no other switch is on. The grouped tests amount to
    taking the first switch that is on in rank order.
   */
  function Choose(flags: Flags): (a: Option<Analysis>)
    ensures a.None? <==> forall b :: !FlagFor(flags, b)
    ensures a.Some? ==> FlagFor(flags, a.value)
    ensures a.Some? ==> forall b :: Rank(b) < Rank(a.value) ==> !FlagFor(flags, b)
  {
    if flags.size then
      assert FlagFor(flags, BySize);
      Some(BySize)
    else if flags.creation || flags.modification || flags.access then
      assert FlagFor(flags, ByCreation) || FlagFor(flags, ByModification) || FlagFor(flags, ByAccess);
      Some(if flags.creation then ByCreation else if flags.modification then ByModification else ByAccess)
    else if flags.uid || flags.gid then
      assert FlagFor(flags, ByUid) || FlagFor(flags, ByGid);
      Some(if flags.uid then ByUid else ByGid)
    else if flags.accessCsv then
      assert FlagFor(flags, AccessCsvReport);
      Some(AccessCsvReport)
    else None
  }

  /** The field an analysis reads; only the two access analyses read the access date. */
  function FieldOf(a: Analysis): (f: Field)
    ensures f == AccessTime <==> a == ByAccess || a == AccessCsvReport
  {
    match a
    case BySize => Size
    case ByCreation => CreationTime
    case ByModification => ModificationTime
    case ByAccess => AccessTime
    case ByUid => Uid
    case ByGid => Gid
    case AccessCsvReport => AccessTime
  }

  /** Only the size analysis passes a bucket function. */
  function BucketFuncOf(a: Analysis): (f: Option<nat -> string>)
    ensures f.Some? <==> a == BySize
    ensures f.Some? ==> forall x :: f.value(x) == SizeLabel(x)
  {
    if a.BySize? then Some(SizeLabel) else None
  }

  /**
    Under an analysis, two records share a key exactly when their sizes lie in
    the same size block (size analysis), or the field the analysis reads holds
    the same size, date or id in both (every other analysis).
   */
  lemma AnalysisSameKey(r1: FileRecord, r2: FileRecord, a: Analysis)
    ensures BucketKey(r1, FieldOf(a), BucketFuncOf(a)) == BucketKey(r2, FieldOf(a), BucketFuncOf(a)) <==>
      if a == BySize then SameSizeBlock(r1.size, r2.size)
      else FieldValue(r1, FieldOf(a)) == FieldValue(r2, FieldOf(a))
  {
    SameKey(r1, r2, FieldOf(a), BucketFuncOf(a));
    if a == BySize {
      SizeLabelsAgree(r1.size, r2.size);
    }
  }

  /** The access CSV report holds exactly the buckets of the access-date analysis. */
  lemma AccessReportGroupsLikeAccess(records: seq<FileRecord>)
    ensures Categorize(records, FieldOf(AccessCsvReport), BucketFuncOf(AccessCsvReport))
         == Categorize(records, FieldOf(ByAccess), BucketFuncOf(ByAccess))
  {
  }

  const AccessCsvFilename: string := "access_times.csv"
  const AccessCsvHeader: seq<string> := ["date", "count", "bytes"]

  /**
    What one run produces. `Unbound` stands for the failure when no switch is
    on and the report is asked for buckets that were never computed.
   */
  datatype Output =
    | Unbound
    | Console(table: Table<Key>)
    | AccessCsv(filename: string, header: seq<string>, rows: Table<Key>)

  /**
    `main` after the directory walk: the chosen analysis' buckets in
    ascending key order, on the console or, for the access CSV report, in
    `access_times.csv` under the header `date,count,bytes`.
   */
  function Run(flags: Flags, records: seq<FileRecord>): (out: Output)
    ensures out.Unbound? <==> Choose(flags).None?
    ensures out.AccessCsv? <==> Choose(flags) == Some(AccessCsvReport)
    ensures out.Console? ==>
      var a := Choose(flags).value;
      && Ascending(out.table, KeyLess)
      && multiset(out.table) == multiset(Categorize(records, FieldOf(a), BucketFuncOf(a)))
    ensures out.AccessCsv? ==>
      && out.filename == "access_times.csv"
      && out.header == ["date", "count", "bytes"]
      && Ascending(out.rows, KeyLess)
      && multiset(out.rows) == multiset(Categorize(records, AccessTime, None))
  {
    match Choose(flags)
    case None => Unbound
    case Some(a) =>
      var buckets := Categorize(records, FieldOf(a), BucketFuncOf(a));
      if a == AccessCsvReport then AccessCsv(AccessCsvFilename, AccessCsvHeader, SortedRows(buckets))
      else Console(SortedRows(buckets))
  }
}

=== FILE: analysis_v3.dfy ===
/**
  Revision 3 of the analysis script: records carry whole-day ages, the
  bucket label is either an age label or the decimal text of a size, uid or
  gid, and the report is either a console table sorted by label or a CSV
  file in dictionary (first-seen) order.
 */
module AnalysisV3 {
  import opened Wrappers
  import opened Decimal
  import opened Buckets
  import opened Rows
  import StringOrder

  /**
    The metadata kept per file. A day count is the number of whole days from
    the timestamp to the scan start, negative for a timestamp in the future.
   */
  datatype FileRecord = FileRecord(
    name: string,
    path: string,
    size: nat,
    creationDays: int,
    modificationDays: int,
    accessDays: int,
    uid: nat,
    gid: nat)

  /** The record field an analysis groups by. */
  datatype Key = Size | CreationTime | ModificationTime | AccessTime | Uid | Gid

  /** The field's name, as used for the dictionary key and the CSV file name. */
  function KeyName(key: Key): string {
    match key
    case Size => "size"
    case CreationTime => "creation_time"
    case ModificationTime => "modification_time"
    case AccessTime => "access_time"
    case Uid => "uid"
    case Gid => "gid"
  }

  predicate IsTimeKey(key: Key) {
    key.CreationTime? || key.ModificationTime? || key.AccessTime?
  }

  function Days(r: FileRecord, key: Key): int
    requires IsTimeKey(key)
  {
    match key
    case CreationTime => r.creationDays
    case ModificationTime => r.modificationDays
    case AccessTime => r.accessDays
  }

  function Identity(r: FileRecord, key: Key): nat
    requires !IsTimeKey(key)
  {
    match key
    case Size => r.size
    case Uid => r.uid
    case Gid => r.gid
  }

  // ----- Labels -----

  const DaysOld: string := " days old"

  /** `text` is `f"{days} days old"`: the canonical numeral of `days`, then " days old". */
  predicate DaysOldLabel(text: string, days: int) {
    && |text| > |DaysOld|
    && text[|text| - |DaysOld|..] == DaysOld
    && IsCanonicalNumeral(text[..|text| - |DaysOld|])
    && DigitsValue(text[..|text| - |DaysOld|]) == days
  }

  /**
    Age label: a positive age reads back from the label's leading digits,
    and every age of zero days or less (including future timestamps) is
    labelled "Today".
   */
  function AgeLabel(days: int): (text: string)
    ensures text == "Today" <==> days <= 0
    ensures days > 0 ==> DaysOldLabel(text, days)
  {
    if days > 0 then
      var text := NatToString(days) + DaysOld;
      assert text[..|text| - |DaysOld|] == NatToString(days);
      assert text[|text| - |DaysOld|..] == DaysOld;
      text
    else "Today"
  }

  /** Ages share a label exactly when both are at most zero or they are equal. */
  lemma AgeLabelsAgree(d1: int, d2: int)
    ensures AgeLabel(d1) == AgeLabel(d2) <==> (d1 <= 0 && d2 <= 0) || d1 == d2
  {
    if d1 > 0 && d2 > 0 && AgeLabel(d1) == AgeLabel(d2) {
      var l := AgeLabel(d1);
      assert DigitsValue(l[..|l| - |DaysOld|]) == d1;
    }
  }

  /** The dictionary key a record is counted under. */
  function Label(r: FileRecord, key: Key): (text: string)
    ensures IsTimeKey(key) ==> (text == "Today" <==> Days(r, key) <= 0)
    ensures IsTimeKey(key) && Days(r, key) > 0 ==> DaysOldLabel(text, Days(r, key))
    ensures !IsTimeKey(key) ==> IsCanonicalNumeral(text) && DigitsValue(text) == Identity(r, key)
  {
    if IsTimeKey(key) then AgeLabel(Days(r, key)) else NatToString(Identity(r, key))
  }

  /**
    Two records fall into the same bucket exactly when their ages are both
    at most zero or equal (time keys), or their raw values are equal (size,
    uid, gid).
   */
  lemma SameBucket(r1: FileRecord, r2: FileRecord, key: Key)
    ensures Label(r1, key) == Label(r2, key) <==>
      if IsTimeKey(key) then (Days(r1, key) <= 0 && Days(r2, key) <= 0) || Days(r1, key) == Days(r2, key)
      else Identity(r1, key) == Identity(r2, key)
  {
    if IsTimeKey(key) {
      AgeLabelsAgree(Days(r1, key), Days(r2, key));
    } else {
      NatToStringInjective(Identity(r1, key), Identity(r2, key));
    }
  }

  // ----- Categorisation -----

  function Classification(key: Key): FileRecord -> Item<string> {
    r => Item(Label(r, key), r.size)
  }

  function RecordSize(r: FileRecord): nat {
    r.size
  }

  /** A label occurs among the classified records exactly when some record has it. */
  lemma ClassifiedLabels(records: seq<FileRecord>, key: Key)
    ensures forall k :: k in Labels(Classify(records, Classification(key))) <==>
      exists i :: 0 <= i < |records| && Label(records[i], key) == k
  {
    var items := Classify(records, Classification(key));
    forall k
      ensures k in Labels(items) <==> exists i :: 0 <= i < |records| && Label(records[i], key) == k
    {
      if k in Labels(items) {
        var i :| 0 <= i < |items| && Labels(items)[i] == k;
        assert Label(records[i], key) == k;
      }
      if exists i :: 0 <= i < |records| && Label(records[i], key) == k {
        var i :| 0 <= i < |records| && Label(records[i], key) == k;
        assert Labels(items)[i] == k;
      }
    }
  }

  /**
    `categorize_files`: one bucket per label that some record has, each with
    count at least one; the counts add up to the number of records and the
    bytes to their total size.
   */
  function Categorize(records: seq<FileRecord>, key: Key): (buckets: Table<string>)
    ensures WellFormed(buckets)
    ensures forall k :: k in Keys(buckets) <==> exists i :: 0 <= i < |records| && Label(records[i], key) == k
    ensures TotalCount(buckets) == |records|
    ensures TotalBytes(buckets) == TotalSize(records, RecordSize)
  {
    ClassifyKeepsSizes(records, Classification(key), RecordSize);
    ClassifiedLabels(records, key);
    Buckets.Categorize(records, Classification(key))
  }

  /** Positions of the records labelled `k`. */
  function Labelled(records: seq<FileRecord>, key: Key, k: string): set<int> {
    set i | 0 <= i < |records| && Label(records[i], key) == k
  }

  /** The bucket of label `k` counts exactly the records labelled `k`, each once. */
  lemma BucketCounts(records: seq<FileRecord>, key: Key, k: string)
    ensures Lookup(Categorize(records, key), k).count == |Labelled(records, key, k)|
  {
    var classify := Classification(key);
    CategorizeCounts(records, classify, k);
    assert Categorize(records, key) == Buckets.Categorize(records, classify);
    assert Positions(records, classify, k) == Labelled(records, key, k);
  }

  /** For an age analysis, the "Today" bucket counts the records aged zero days or less. */
  lemma TodayCounts(records: seq<FileRecord>, key: Key)
    requires IsTimeKey(key)
    ensures Lookup(Categorize(records, key), "Today").count == |set i | 0 <= i < |records| && Days(records[i], key) <= 0|
  {
    BucketCounts(records, key, "Today");
    assert Labelled(records, key, "Today") == set i | 0 <= i < |records| && Days(records[i], key) <= 0;
  }

  /** Reordering the records leaves the label-to-totals mapping unchanged. */
  lemma CategorizeOrderIndependent(a: seq<FileRecord>, b: seq<FileRecord>, key: Key)
    requires multiset(a) == multiset(b)
    ensures ToMap(Categorize(a, key)) == ToMap(Categorize(b, key))
  {
    CategorizePermutation(a, b, Classification(key));
  }

  /** Buckets appear in the dictionary in the order their labels first occur among the records. */
  lemma CategorizeFirstSeenOrder(records: seq<FileRecord>, key: Key)
    ensures FirstSeenOrder(Classify(records, Classification(key)), Keys(Categorize(records, key)))
  {
    AccumulateFirstSeenOrder(Classify(records, Classification(key)));
  }

  // ----- Console table -----

  const TableHeader: seq<string> := ["Category", "# of Files", "# of Bytes"]

  /** `display_buckets`: every bucket once, labels strictly ascending. */
  function DisplayRows(buckets: Table<string>): (rows: Table<string>)
    requires DistinctKeys(buckets)
    ensures multiset(rows) == multiset(buckets)
    ensures Ascending(rows, StringOrder.Less)
  {
    StringOrder.LessIsStrictTotalOrder();
    SortByKeyAscending(buckets, StringOrder.Less);
    SortByKey(buckets, StringOrder.Less)
  }

  /** The console table does not depend on the order in which files were found. */
  lemma DisplayOrderIndependent(a: seq<FileRecord>, b: seq<FileRecord>, key: Key)
    requires multiset(a) == multiset(b)
    ensures DisplayRows(Categorize(a, key)) == DisplayRows(Categorize(b, key))
  {
    CategorizeOrderIndependent(a, b, key);
    StringOrder.LessIsStrictTotalOrder();
    SortedRowsDependOnContentsOnly(Categorize(a, key), Categorize(b, key), StringOrder.Less);
  }

  // ----- CSV file -----

  const CsvHeader: seq<string> := ["Category", "Count", "Bytes"]

  /** `output_to_csv`: one row of cells per bucket, in dictionary order. */
  function CsvRows(buckets: Table<string>): (rows: seq<seq<string>>)
    ensures |rows| == |buckets|
    ensures forall i :: 0 <= i < |rows| ==>
      && |rows[i]| == 3
      && rows[i][0] == buckets[i].key
      && IsCanonicalNumeral(rows[i][1]) && DigitsValue(rows[i][1]) == buckets[i].tally.count
      && IsCanonicalNumeral(rows[i][2]) && DigitsValue(rows[i][2]) == buckets[i].tally.bytes
  {
    seq(|buckets|, i requires 0 <= i < |buckets| =>
      [buckets[i].key, NatToString(buckets[i].tally.count), NatToString(buckets[i].tally.bytes)])
  }

  /** Reads a CSV body back into a dictionary; fails on a malformed row. */
  function ParseCsvRows(rows: seq<seq<string>>): Option<Table<string>> {
    if rows == [] then Some([])
    else
      var row := rows[0];
      if |row| == 3 && IsNumeral(row[1]) && IsNumeral(row[2]) then
        match ParseCsvRows(rows[1..])
        case Some(rest) => Some([Bucket(row[0], Tally(DigitsValue(row[1]), DigitsValue(row[2])))] + rest)
        case None => None
      else None
  }

  /** A well-formed first row is read as the first bucket, in front of the rest. */
  lemma ParseCons(rows: seq<seq<string>>, first: Bucket<string>, rest: Table<string>)
    requires |rows| > 0 && |rows[0]| == 3 && IsNumeral(rows[0][1]) && IsNumeral(rows[0][2])
    requires first == Bucket(rows[0][0], Tally(DigitsValue(rows[0][1]), DigitsValue(rows[0][2])))
    requires ParseCsvRows(rows[1..]) == Some(rest)
    ensures ParseCsvRows(rows) == Some([first] + rest)
  {
  }

  /** The rows after the first are those of the remaining buckets. */
  lemma CsvRowsTail(buckets: Table<string>)
    requires |buckets| > 0
    ensures CsvRows(buckets)[1..] == CsvRows(buckets[1..])
  {
  }

  /** The first row is well formed and reads back as the first bucket. */
  lemma CsvRowsHead(buckets: Table<string>)
    requires |buckets| > 0
    ensures var row := CsvRows(buckets)[0];
      && |row| == 3 && IsNumeral(row[1]) && IsNumeral(row[2])
      && Bucket(row[0], Tally(DigitsValue(row[1]), DigitsValue(row[2]))) == buckets[0]
  {
  }

  /** Reading the CSV body back yields the dictionary it was written from, in the same order. */
  lemma {:induction false} CsvRoundTrip(buckets: Table<string>)
    ensures ParseCsvRows(CsvRows(buckets)) == Some(buckets)
  {
    if buckets != [] {
      var rows := CsvRows(buckets);
      CsvRoundTrip(buckets[1..]);
      CsvRowsTail(buckets);
      CsvRowsHead(buckets);
      ParseCons(rows, buckets[0], buckets[1..]);
      assert buckets == [buckets[0]] + buckets[1..];
    }
  }

  /** CSV rows follow record order: swapping two files of different sizes swaps the rows. */
  lemma CsvDependsOnOrder()
    ensures
      var a := FileRecord("a", "d/a", 1, 0, 0, 0, 0, 0);
      var b := FileRecord("b", "d/b", 2, 0, 0, 0, 0, 0);
      CsvRows(Categorize([a, b], Size)) != CsvRows(Categorize([b, a], Size))
  {
    var a := FileRecord("a", "d/a", 1, 0, 0, 0, 0, 0);
    var b := FileRecord("b", "d/b", 2, 0, 0, 0, 0, 0);
    assert Label(a, Size) == "1" && Label(b, Size) == "2";
    var ia, ib := Item("1", 1), Item("2", 2);
    assert Classify([a, b], Classification(Size)) == [ia, ib];
    assert Classify([b, a], Classification(Size)) == [ib, ia];
    AccumulatePair(ia, ib);
    AccumulatePair(ib, ia);
    assert CsvRows(Categorize([a, b], Size))[0][0] == "1";
    assert CsvRows(Categorize([b, a], Size))[0][0] == "2";
  }

  // ----- Command line -----

  /** The boolean command-line switches after argument parsing. */
  datatype Flags = Flags(
    size: bool,
    creation: bool,
    modification: bool,
    access: bool,
    accessCsv: bool,
    uid: bool,
    gid: bool,
    outputCsv: bool)

  /** Whether the switch naming `key` is on. */
  function FlagFor(flags: Flags, key: Key): bool {
    match key
    case Size => flags.size
    case CreationTime => flags.creation
    case ModificationTime => flags.modification
    case AccessTime => flags.access
    case Uid => flags.uid
    case Gid => flags.gid
  }

  /** Position of `key` in the order in which `main` tests the switches. */
  function Rank(key: Key): nat {
    match key
    case Size => 0
    case CreationTime => 1
    case ModificationTime => 2
    case AccessTime => 3
    case Uid => 4
    case Gid => 5
  }

  /** The analysis `main` runs: the first switch that is on, in rank order; none when all are off. */
  function SelectKey(flags: Flags): (key: Option<Key>)
    ensures key.None? <==> forall k :: !FlagFor(flags, k)
    ensures key.Some? ==> FlagFor(flags, key.value)
    ensures key.Some? ==> forall k :: Rank(k) < Rank(key.value) ==> !FlagFor(flags, k)
  {
    if flags.size then assert FlagFor(flags, Size); Some(Size)
    else if flags.creation then assert FlagFor(flags, CreationTime); Some(CreationTime)
    else if flags.modification then assert FlagFor(flags, ModificationTime); Some(ModificationTime)
    else if flags.access then assert FlagFor(flags, AccessTime); Some(AccessTime)
    else if flags.uid then assert FlagFor(flags, Uid); Some(Uid)
    else if flags.gid then assert FlagFor(flags, Gid); Some(Gid)
    else None
  }

  function CsvFilename(key: Key): string {
    KeyName(key) + "_data.csv"
  }

  /** Each analysis writes its own CSV file, named after the field and ending in `_data.csv`. */
  lemma CsvFilenames(k1: Key, k2: Key)
    ensures CsvFilename(k1) == CsvFilename(k2) <==> k1 == k2
    ensures |CsvFilename(k1)| > 9 && CsvFilename(k1)[|CsvFilename(k1)| - 9..] == "_data.csv"
  {
    var f1, f2 := CsvFilename(k1), CsvFilename(k2);
    assert f1[|f1| - 9..] == "_data.csv";
    if k1 != k2 {
      assert f1 != f2 by {
        assert KeyName(k1) != KeyName(k2);
        if |KeyName(k1)| == |KeyName(k2)| {
          var i :| 0 <= i < |KeyName(k1)| && KeyName(k1)[i] != KeyName(k2)[i];
          assert f1[i] != f2[i];
        }
      }
    }
  }

  /** What one run produces. */
  datatype Output =
    | NoAnalysis
    | Console(header: seq<string>, rows: Table<string>)
    | CsvFile(filename: string, header: seq<string>, cells: seq<seq<string>>)

  /**
    `main` after the directory walk: no report when no analysis switch is on;
    otherwise the buckets of the selected field, as a sorted console table or
    as a CSV file named after the field whose rows read back to the dictionary.
   */
  function Run(flags: Flags, records: seq<FileRecord>): (out: Output)
    ensures out.NoAnalysis? <==> SelectKey(flags).None?
    ensures out.CsvFile? <==> SelectKey(flags).Some? && flags.outputCsv
    ensures out.Console? ==>
      && out.header == TableHeader
      && Ascending(out.rows, StringOrder.Less)
      && multiset(out.rows) == multiset(Categorize(records, SelectKey(flags).value))
    ensures out.CsvFile? ==>
      && out.filename == KeyName(SelectKey(flags).value) + "_data.csv"
      && out.header == CsvHeader
      && out.cells == CsvRows(Categorize(records, SelectKey(flags).value))
      && ParseCsvRows(out.cells) == Some(Categorize(records, SelectKey(flags).value))
  {
    match SelectKey(flags)
    case None => NoAnalysis
    case Some(key) =>
      var buckets := Categorize(records, key);
      if flags.outputCsv then
        CsvRoundTrip(buckets);
        CsvFile(CsvFilename(key), CsvHeader, CsvRows(buckets))
      else
        Console(TableHeader, DisplayRows(buckets))
  }
}

=== FILE: buckets.dfy ===
/**
  The accumulation engine shared by both revisions of `categorize_files`:
  a loop over classified records that keeps, per bucket key, the number of
  records and their summed size, in a dictionary that remembers the order
  in which keys were first inserted (as a Python `dict` does).
 */
module Buckets {

  /** Totals of one bucket: `{'count': ..., 'bytes': ...}`. */
  datatype Tally = Tally(count: nat, bytes: nat)

  /** One dictionary entry. */
  datatype Bucket<K> = Bucket(key: K, tally: Tally)

  /** A dictionary from bucket key to totals, listed in insertion order. */
  type Table<K> = seq<Bucket<K>>

  /** A record after classification: the key it falls under and its size in bytes. */
  datatype Item<K> = Item(key: K, size: nat)

  // ----- Views of a table -----

  function Keys<K>(t: Table<K>): (ks: seq<K>)
    ensures |ks| == |t|
    ensures forall i :: 0 <= i < |t| ==> ks[i] == t[i].key
  {
    if t == [] then [] else [t[0].key] + Keys(t[1..])
  }

  predicate DistinctKeys<K(==)>(t: Table<K>) {
    forall i, j :: 0 <= i < j < |t| ==> t[i].key != t[j].key
  }

  predicate AllOccupied<K>(t: Table<K>) {
    forall i :: 0 <= i < |t| ==> t[i].tally.count >= 1
  }

  /** What a dictionary built by `categorize_files` always satisfies. */
  predicate WellFormed<K(==)>(t: Table<K>) {
    DistinctKeys(t) && AllOccupied(t)
  }

  /** Totals stored under `k`; zero totals when `k` has no bucket. */
  function Lookup<K(==)>(t: Table<K>, k: K): Tally {
    if t == [] then Tally(0, 0)
    else if t[0].key == k then t[0].tally
    else Lookup(t[1..], k)
  }

  /** The dictionary's contents with insertion order forgotten. */
  function ToMap<K(==)>(t: Table<K>): map<K, Tally> {
    map k | k in Keys(t) :: Lookup(t, k)
  }

  function TotalCount<K>(t: Table<K>): nat {
    if t == [] then 0 else t[0].tally.count + TotalCount(t[1..])
  }

  function TotalBytes<K>(t: Table<K>): nat {
    if t == [] then 0 else t[0].tally.bytes + TotalBytes(t[1..])
  }

  // ----- Views of the classified input -----

  function Labels<K>(items: seq<Item<K>>): seq<K> {
    seq(|items|, i requires 0 <= i < |items| => items[i].key)
  }

  /** The keys of a longer input are those of its prefix followed by the last key. */
  lemma LabelsSnoc<K>(items: seq<Item<K>>)
    requires |items| > 0
    ensures Labels(items) == Labels(items[..|items| - 1]) + [items[|items| - 1].key]
  {
    var n := |items| - 1;
    var a, b := Labels(items), Labels(items[..n]) + [items[n].key];
    assert |a| == |b|;
    forall i | 0 <= i < |a|
      ensures a[i] == b[i]
    {
      if i < n {
        assert items[..n][i] == items[i];
      }
    }
  }

  function SumSizes<K>(items: seq<Item<K>>): nat {
    if items == [] then 0 else SumSizes(items[..|items| - 1]) + items[|items| - 1].size
  }

  /** Number of items that fall under key `k`. */
  function CountOf<K(==)>(items: seq<Item<K>>, k: K): nat {
    if items == [] then 0
    else CountOf(items[..|items| - 1], k) + (if items[|items| - 1].key == k then 1 else 0)
  }

  /** Summed size of the items that fall under key `k`. */
  function BytesOf<K(==)>(items: seq<Item<K>>, k: K): nat {
    if items == [] then 0
    else BytesOf(items[..|items| - 1], k) + (if items[|items| - 1].key == k then items[|items| - 1].size else 0)
  }

  /** Position of the first item that falls under `k`; `|items|` when there is none. */
  function FirstIndex<K(==)>(items: seq<Item<K>>, k: K): (i: nat)
    ensures i <= |items|
    ensures i < |items| <==> k in Labels(items)
    ensures i < |items| ==> items[i].key == k
    ensures forall j :: 0 <= j < i && j < |items| ==> items[j].key != k
  {
    if items == [] then 0
    else
      var n := |items| - 1;
      var f := FirstIndex(items[..n], k);
      LabelsSnoc(items);
      if f < n then f
      else if items[n].key == k then n
      else n + 1
  }

  /** Applies a classification to every record, keeping their order. */
  function Classify<R, K>(rs: seq<R>, classify: R -> Item<K>): (items: seq<Item<K>>)
    ensures |items| == |rs|
    ensures forall i :: 0 <= i < |rs| ==> items[i] == classify(rs[i])
  {
    seq(|rs|, i requires 0 <= i < |rs| => classify(rs[i]))
  }

  /** Summed size of the records, given how to read a record's size. */
  function TotalSize<R>(rs: seq<R>, size: R -> nat): nat {
    if rs == [] then 0 else TotalSize(rs[..|rs| - 1], size) + size(rs[|rs| - 1])
  }

  /** A classification that keeps each record's size keeps the summed size. */
  lemma {:induction false} ClassifyKeepsSizes<R, K>(rs: seq<R>, classify: R -> Item<K>, size: R -> nat)
    requires forall r :: classify(r).size == size(r)
    ensures SumSizes(Classify(rs, classify)) == TotalSize(rs, size)
  {
    if rs != [] {
      var n := |rs| - 1;
      ClassifyKeepsSizes(rs[..n], classify, size);
      assert Classify(rs, classify)[..n] == Classify(rs[..n], classify);
    }
  }

  // ----- The loop -----

  function Bump(c: Tally, size: nat): Tally {
    Tally(c.count + 1, c.bytes + size)
  }

  /**
    One iteration of the loop: create the bucket with zero totals at the end
    of the dictionary if the key is new, then add one to its count and the
    record's size to its bytes.
   */
  function Add<K(==)>(t: Table<K>, it: Item<K>): (r: Table<K>)
    ensures Keys(r) == if it.key in Keys(t) then Keys(t) else Keys(t) + [it.key]
    ensures TotalCount(r) == TotalCount(t) + 1
    ensures TotalBytes(r) == TotalBytes(t) + it.size
  {
    if t == [] then [Bucket(it.key, Bump(Tally(0, 0), it.size))]
    else if t[0].key == it.key then
      var r := [Bucket(it.key, Bump(t[0].tally, it.size))] + t[1..];
      assert r[1..] == t[1..];
      r
    else
      var rest := Add(t[1..], it);
      var r := [t[0]] + rest;
      assert r[1..] == rest;
      r
  }

  /** Distinct keys, one bucket at a time. */
  lemma ConsDistinct<K>(b: Bucket<K>, t: Table<K>)
    ensures DistinctKeys([b] + t) <==> b.key !in Keys(t) && DistinctKeys(t)
  {
    var s := [b] + t;
    assert forall i :: 0 <= i < |t| ==> s[i + 1] == t[i];
    if b.key in Keys(t) {
      var j :| 0 <= j < |t| && Keys(t)[j] == b.key;
      assert s[0].key == s[j + 1].key;
    }
    if DistinctKeys(s) {
      forall i, j | 0 <= i < j < |t|
        ensures t[i].key != t[j].key
      {
        assert s[i + 1].key != s[j + 1].key;
      }
    }
    if b.key !in Keys(t) && DistinctKeys(t) {
      forall i, j | 0 <= i < j < |s|
        ensures s[i].key != s[j].key
      {
        if i == 0 {
          assert Keys(t)[j - 1] == s[j].key;
        }
      }
    }
  }

  /** Occupied buckets, one bucket at a time. */
  lemma ConsOccupied<K>(b: Bucket<K>, t: Table<K>)
    ensures AllOccupied([b] + t) <==> b.tally.count >= 1 && AllOccupied(t)
  {
    var s := [b] + t;
    assert s[0] == b;
    assert forall i :: 0 <= i < |t| ==> s[i + 1] == t[i];
    if AllOccupied(s) {
      forall i | 0 <= i < |t|
        ensures t[i].tally.count >= 1
      {
        assert s[i + 1].tally.count >= 1;
      }
    }
    if b.tally.count >= 1 && AllOccupied(t) {
      forall i | 0 <= i < |s|
        ensures s[i].tally.count >= 1
      {
        if i > 0 {
          assert s[i] == t[i - 1];
        }
      }
    }
  }

  /** One iteration bumps the bucket of the item's key and no other. */
  lemma {:induction false} AddLookup<K(!new)>(t: Table<K>, it: Item<K>)
    ensures forall k :: Lookup(Add(t, it), k) == if k == it.key then Bump(Lookup(t, k), it.size) else Lookup(t, k)
  {
    if t != [] {
      var r := Add(t, it);
      if t[0].key == it.key {
        assert r[1..] == t[1..];
      } else {
        AddLookup(t[1..], it);
        assert r[1..] == Add(t[1..], it);
      }
    }
  }

  /** One iteration keeps keys distinct and every bucket occupied. */
  lemma {:induction false} AddWellFormed<K>(t: Table<K>, it: Item<K>)
    ensures DistinctKeys(t) ==> DistinctKeys(Add(t, it))
    ensures AllOccupied(t) ==> AllOccupied(Add(t, it))
  {
    if t == [] {
      assert Add(t, it)[0].tally.count == 1;
    } else {
      var r := Add(t, it);
      assert [t[0]] + t[1..] == t;
      ConsDistinct(t[0], t[1..]);
      ConsOccupied(t[0], t[1..]);
      if t[0].key == it.key {
        assert r == [r[0]] + t[1..];
        ConsDistinct(r[0], t[1..]);
        ConsOccupied(r[0], t[1..]);
      } else {
        AddWellFormed(t[1..], it);
        assert r == [t[0]] + Add(t[1..], it);
        ConsDistinct(t[0], Add(t[1..], it));
        ConsOccupied(t[0], Add(t[1..], it));
      }
    }
  }

  /**
    The whole loop, run over the items in order from an empty dictionary.
    Every item increments exactly one bucket: the count and bytes of bucket
    `k` are those of the items under `k`, a bucket exists exactly for the
    keys that occur, and the totals over all buckets are the number of items
    and their summed size.
   */
  function Accumulate<K(==,!new)>(items: seq<Item<K>>): (t: Table<K>)
    ensures WellFormed(t)
    ensures forall k :: Lookup(t, k) == Tally(CountOf(items, k), BytesOf(items, k))
    ensures forall k :: k in Keys(t) <==> k in Labels(items)
    ensures TotalCount(t) == |items|
    ensures TotalBytes(t) == SumSizes(items)
  {
    if items == [] then []
    else
      var n := |items| - 1;
      var prefix := Accumulate(items[..n]);
      LabelsSnoc(items);
      AddLookup(prefix, items[n]);
      AddWellFormed(prefix, items[n]);
      Add(prefix, items[n])
  }

  /** `categorize_files`: classify every record, then run the loop. */
  function Categorize<R, K(==,!new)>(rs: seq<R>, classify: R -> Item<K>): Table<K> {
    Accumulate(Classify(rs, classify))
  }

  // ----- Properties of the loop -----

  /** A table lists each of its buckets once, so membership is decided by lookup. */
  lemma {:induction false} MemberIffLookup<K>(t: Table<K>, b: Bucket<K>)
    requires DistinctKeys(t)
    ensures b in t <==> b.key in Keys(t) && Lookup(t, b.key) == b.tally
  {
    if t != [] {
      assert DistinctKeys(t[1..]);
      MemberIffLookup(t[1..], b);
    }
  }

  /** Well-formed tables with the same contents hold the same buckets. */
  lemma SameContentsSameBuckets<K>(t1: Table<K>, t2: Table<K>)
    requires DistinctKeys(t1) && DistinctKeys(t2)
    requires ToMap(t1) == ToMap(t2)
    ensures forall b :: b in t1 <==> b in t2
  {
    forall b
      ensures b in t1 <==> b in t2
    {
      MemberIffLookup(t1, b);
      MemberIffLookup(t2, b);
      assert b.key in Keys(t1) <==> b.key in ToMap(t1);
      assert b.key in Keys(t2) <==> b.key in ToMap(t2);
    }
  }

  lemma {:induction false} CountBytesAppend<K>(a: seq<Item<K>>, b: seq<Item<K>>, k: K)
    ensures CountOf(a + b, k) == CountOf(a, k) + CountOf(b, k)
    ensures BytesOf(a + b, k) == BytesOf(a, k) + BytesOf(b, k)
    decreases |b|
  {
    if b == [] {
      assert a + b == a;
    } else {
      var n := |b| - 1;
      assert (a + b)[..|a + b| - 1] == a + b[..n];
      CountBytesAppend(a, b[..n], k);
    }
  }

  /** The per-key totals depend only on which items occur, not on their order. */
  lemma {:induction false} CountBytesPermutation<K>(a: seq<Item<K>>, b: seq<Item<K>>, k: K)
    requires multiset(a) == multiset(b)
    ensures CountOf(a, k) == CountOf(b, k)
    ensures BytesOf(a, k) == BytesOf(b, k)
    decreases |a|
  {
    if a == [] {
      assert |multiset(b)| == 0;
    } else {
      var n := |a| - 1;
      var x := a[n];
      assert a == a[..n] + [x];
      assert x in multiset(b);
      var i :| 0 <= i < |b| && b[i] == x;
      var rest := b[..i] + b[i + 1..];
      assert b == b[..i] + [x] + b[i + 1..];
      assert multiset(b) == multiset(b[..i]) + multiset{x} + multiset(b[i + 1..]);
      assert multiset(a) == multiset(a[..n]) + multiset{x};
      assert multiset(rest) == multiset(b[..i]) + multiset(b[i + 1..]);
      assert multiset(a[..n]) == multiset(a) - multiset{x};
      assert multiset(rest) == multiset(b) - multiset{x};
      CountBytesPermutation(a[..n], rest, k);
      CountBytesAppend(a[..n], [x], k);
      CountBytesAppend(b[..i], [x], k);
      CountBytesAppend(b[..i] + [x], b[i + 1..], k);
      CountBytesAppend(b[..i], b[i + 1..], k);
      assert CountOf([x], k) == CountOf([], k) + (if x.key == k then 1 else 0);
    }
  }

  /** A key occurs in one arrangement of the items exactly when it occurs in any other. */
  lemma LabelsPermutation<K>(a: seq<Item<K>>, b: seq<Item<K>>, k: K)
    requires multiset(a) == multiset(b)
    ensures k in Labels(a) <==> k in Labels(b)
  {
    if k in Labels(a) {
      var i :| 0 <= i < |a| && a[i].key == k;
      assert a[i] in multiset(b);
      var j :| 0 <= j < |b| && b[j] == a[i];
      assert Labels(b)[j] == k;
    }
    if k in Labels(b) {
      var i :| 0 <= i < |b| && b[i].key == k;
      assert b[i] in multiset(a);
      var j :| 0 <= j < |a| && a[j] == b[i];
      assert Labels(a)[j] == k;
    }
  }

  /** Reordering the input leaves the dictionary's contents unchanged. */
  lemma AccumulatePermutation<K(!new)>(a: seq<Item<K>>, b: seq<Item<K>>)
    requires multiset(a) == multiset(b)
    ensures ToMap(Accumulate(a)) == ToMap(Accumulate(b))
  {
    var ta, tb := Accumulate(a), Accumulate(b);
    forall k
      ensures k in Keys(ta) <==> k in Keys(tb)
    {
      LabelsPermutation(a, b, k);
    }
    forall k
      ensures Lookup(ta, k) == Lookup(tb, k)
    {
      CountBytesPermutation(a, b, k);
    }
  }

  lemma ClassifyAppend<R, K>(a: seq<R>, b: seq<R>, classify: R -> Item<K>)
    ensures Classify(a + b, classify) == Classify(a, classify) + Classify(b, classify)
  {
  }

  lemma RemoveAt<T>(s: seq<T>, i: nat)
    requires i < |s|
    ensures s == s[..i] + [s[i]] + s[i + 1..]
    ensures multiset(s[..i] + s[i + 1..]) == multiset(s) - multiset{s[i]}
  {
    assert s == s[..i] + [s[i]] + s[i + 1..];
  }

  /** Classifying a record in the middle contributes its one item to the multiset. */
  lemma ClassifyMiddle<R, K>(front: seq<R>, x: R, back: seq<R>, classify: R -> Item<K>)
    ensures multiset(Classify(front + [x] + back, classify))
         == multiset(Classify(front + back, classify)) + multiset{classify(x)}
  {
    ClassifyAppend(front + [x], back, classify);
    ClassifyAppend(front, [x], classify);
    ClassifyAppend(front, back, classify);
  }

  /** Mapping each record to its item preserves a reordering of the records. */
  lemma {:induction false} ClassifyPermutation<R, K>(a: seq<R>, b: seq<R>, classify: R -> Item<K>)
    requires multiset(a) == multiset(b)
    ensures multiset(Classify(a, classify)) == multiset(Classify(b, classify))
    decreases |a|
  {
    if a == [] {
      assert |multiset(b)| == 0;
    } else {
      var x := a[0];
      assert x in multiset(b);
      var i :| 0 <= i < |b| && b[i] == x;
      RemoveAt(a, 0);
      RemoveAt(b, i);
      var rest := b[..i] + b[i + 1..];
      ClassifyPermutation(a[1..], rest, classify);
      ClassifyMiddle([], x, a[1..], classify);
      ClassifyMiddle(b[..i], x, b[i + 1..], classify);
      assert [] + [x] + a[1..] == a && [] + a[1..] == a[1..];
    }
  }

  /** The count kept for `k` is the number of positions whose item falls under `k`. */
  lemma {:induction false} CountIsIndexSetSize<K>(items: seq<Item<K>>, k: K)
    ensures CountOf(items, k) == |set i | 0 <= i < |items| && items[i].key == k|
  {
    if items != [] {
      var n := |items| - 1;
      var p := items[..n];
      CountIsIndexSetSize(p, k);
      var sp := set i | 0 <= i < |p| && p[i].key == k;
      var s := set i | 0 <= i < |items| && items[i].key == k;
      if items[n].key == k {
        assert s == sp + {n};
        assert n !in sp;
      } else {
        assert s == sp;
      }
    }
  }

  /** Positions of the records classified under `k`. */
  function Positions<R, K(==)>(rs: seq<R>, classify: R -> Item<K>, k: K): set<int> {
    set i | 0 <= i < |rs| && classify(rs[i]).key == k
  }

  /**
    `categorize_files` as a whole: the bucket of `k` holds exactly the
    records classified under `k`, counted once each.
   */
  lemma CategorizeCounts<R, K(!new)>(rs: seq<R>, classify: R -> Item<K>, k: K)
    ensures Lookup(Categorize(rs, classify), k).count == |Positions(rs, classify, k)|
    ensures k in Keys(Categorize(rs, classify)) <==> exists i :: 0 <= i < |rs| && classify(rs[i]).key == k
  {
    var items := Classify(rs, classify);
    CountIsIndexSetSize(items, k);
    assert (set i | 0 <= i < |items| && items[i].key == k) == Positions(rs, classify, k);
    assert k in Keys(Categorize(rs, classify)) <==> k in Labels(items);
    if k in Labels(items) {
      var j :| 0 <= j < |items| && Labels(items)[j] == k;
      assert classify(rs[j]).key == k;
    }
    if exists i :: 0 <= i < |rs| && classify(rs[i]).key == k {
      var i :| 0 <= i < |rs| && classify(rs[i]).key == k;
      assert Labels(items)[i] == k;
    }
  }

  /** Reordering the records leaves the dictionary produced by `categorize_files` unchanged. */
  lemma CategorizePermutation<R, K(!new)>(a: seq<R>, b: seq<R>, classify: R -> Item<K>)
    requires multiset(a) == multiset(b)
    ensures ToMap(Categorize(a, classify)) == ToMap(Categorize(b, classify))
  {
    ClassifyPermutation(a, b, classify);
    AccumulatePermutation(Classify(a, classify), Classify(b, classify));
  }

  /** Extending the items does not move the first occurrence of a key already present. */
  lemma FirstIndexExtend<K>(items: seq<Item<K>>, k: K)
    requires |items| > 0 && k in Labels(items[..|items| - 1])
    ensures k in Labels(items)
    ensures FirstIndex(items, k) == FirstIndex(items[..|items| - 1], k) < |items| - 1
  {
    LabelsSnoc(items);
  }

  /** One more item appends its key to the key order exactly when the key is new. */
  lemma AccumulateKeysStep<K(!new)>(items: seq<Item<K>>)
    requires |items| > 0
    ensures var n := |items| - 1;
      Keys(Accumulate(items)) ==
        if items[n].key in Labels(items[..n]) then Keys(Accumulate(items[..n]))
        else Keys(Accumulate(items[..n])) + [items[n].key]
  {
    var n := |items| - 1;
    assert Accumulate(items) == Add(Accumulate(items[..n]), items[n]);
  }

  /** Two items with different keys make two buckets, the first item's first. */
  lemma AccumulatePair<K(!new)>(x: Item<K>, y: Item<K>)
    requires x.key != y.key
    ensures Accumulate([x, y]) == [Bucket(x.key, Tally(1, x.size)), Bucket(y.key, Tally(1, y.size))]
  {
    assert [x, y][..1] == [x] && [x][..0] == [];
    assert Accumulate([x]) == Add([], x);
  }

  /** Keys `ks` are listed in the order of their first occurrence among the items. */
  ghost predicate FirstSeenOrder<K>(items: seq<Item<K>>, ks: seq<K>) {
    forall i, j :: 0 <= i < j < |ks| ==>
      FirstIndex(items, ks[i]) < FirstIndex(items, ks[j]) < |items|
  }

  lemma FirstSeenPair<K>(items: seq<Item<K>>, kp: seq<K>, ks: seq<K>, i: nat, j: nat)
    requires |items| > 0
    requires forall k :: k in kp <==> k in Labels(items[..|items| - 1])
    requires FirstSeenOrder(items[..|items| - 1], kp)
    requires ks == if items[|items| - 1].key in kp then kp else kp + [items[|items| - 1].key]
    requires i < j < |ks|
    ensures FirstIndex(items, ks[i]) < FirstIndex(items, ks[j]) < |items|
  {
    var n := |items| - 1;
    assert ks[i] == kp[i] && kp[i] in kp;
    FirstIndexExtend(items, ks[i]);
    if j < |kp| {
      assert ks[j] == kp[j] && kp[j] in kp;
      FirstIndexExtend(items, ks[j]);
    } else {
      assert ks[j] == items[n].key && items[n].key !in Labels(items[..n]);
      LabelsSnoc(items);
    }
  }

  lemma FirstSeenOrderStep<K>(items: seq<Item<K>>, kp: seq<K>, ks: seq<K>)
    requires |items| > 0
    requires forall k :: k in kp <==> k in Labels(items[..|items| - 1])
    requires FirstSeenOrder(items[..|items| - 1], kp)
    requires ks == if items[|items| - 1].key in kp then kp else kp + [items[|items| - 1].key]
    ensures FirstSeenOrder(items, ks)
  {
    forall i, j | 0 <= i < j < |ks|
      ensures FirstIndex(items, ks[i]) < FirstIndex(items, ks[j]) < |items|
    {
      FirstSeenPair(items, kp, ks, i, j);
    }
  }

  /**
    Dictionary iteration order: keys come out in the order in which they
    first occur among the items.
   */
  lemma {:induction false} AccumulateFirstSeenOrder<K(!new)>(items: seq<Item<K>>)
    ensures FirstSeenOrder(items, Keys(Accumulate(items)))
  {
    if items != [] {
      var n := |items| - 1;
      var p := items[..n];
      var kp := Keys(Accumulate(p));
      AccumulateFirstSeenOrder(p);
      AccumulateKeysStep(items);
      assert forall k :: k in kp <==> k in Labels(p);
      FirstSeenOrderStep(items, kp, Keys(Accumulate(items)));
    }
  }
}

=== FILE: decimal.dfy ===
/**
  Python's `str` applied to a non-negative `int`: the shortest decimal
  numeral, most significant digit first, and the parser that inverts it.
 */
module Decimal {

  predicate IsDigit(c: char) {
    '0' <= c <= '9'
  }

  predicate AllDigits(s: string) {
    forall i :: 0 <= i < |s| ==> IsDigit(s[i])
  }

  /** A non-empty string of decimal digits, as `int` accepts it. */
  predicate IsNumeral(s: string) {
    |s| > 0 && AllDigits(s)
  }

  /** A numeral as `str` writes it: no leading zero unless it is `0` itself. */
  predicate IsCanonicalNumeral(s: string) {
    IsNumeral(s) && (s[0] == '0' ==> |s| == 1)
  }

  function DigitChar(d: nat): (c: char)
    requires d < 10
    ensures IsDigit(c)
  {
    (48 + d) as char
  }

  function DigitValue(c: char): (d: nat)
    requires IsDigit(c)
    ensures d < 10
  {
    c as int - 48
  }

  /** The value a string of decimal digits denotes. */
  function DigitsValue(s: string): nat
    requires AllDigits(s)
  {
    if |s| == 0 then 0 else 10 * DigitsValue(s[..|s| - 1]) + DigitValue(s[|s| - 1])
  }

  /** `str(n)` for `n >= 0`: digits only, no leading zero, and it reads back as `n`. */
  function NatToString(n: nat): (s: string)
    ensures IsCanonicalNumeral(s)
    ensures s[0] == '0' ==> n == 0
    ensures DigitsValue(s) == n
  {
    if n < 10 then [DigitChar(n)]
    else
      var p := NatToString(n / 10);
      var s := p + [DigitChar(n % 10)];
      assert s[..|s| - 1] == p;
      s
  }

  /** Distinct numbers print differently, so a printed number identifies its value. */
  lemma NatToStringInjective(m: nat, n: nat)
    ensures NatToString(m) == NatToString(n) <==> m == n
  {
  }

  /** Every canonical numeral is what `str` prints for its value, so `str` is onto them. */
  lemma {:induction false} CanonicalNumeralIsNatToString(s: string)
    requires IsCanonicalNumeral(s)
    ensures NatToString(DigitsValue(s)) == s
  {
    if |s| > 1 {
      var p := s[..|s| - 1];
      CanonicalNumeralIsNatToString(p);
      var n := DigitsValue(s);
      assert n / 10 == DigitsValue(p) && n % 10 == DigitValue(s[|s| - 1]);
      assert s == p + [s[|s| - 1]];
    }
  }
}

=== FILE: order.dfy ===
/** Orders used to sort report rows. */
module Order {

  /** `less` is irreflexive, transitive and relates any two distinct values. */
  ghost predicate StrictTotalOrder<K(!new)>(less: (K, K) -> bool) {
    && (forall x :: !less(x, x))
    && (forall x, y, z :: less(x, y) && less(y, z) ==> less(x, z))
    && (forall x, y :: x != y ==> less(x, y) || less(y, x))
  }
}

/**
  Python's `<` on `str`: lexicographic comparison by code point, where a
  proper prefix sorts before the longer string.
 */
module StringOrder {
  import opened Order

  predicate Less(a: string, b: string) {
    if |b| == 0 then false
    else if |a| == 0 then true
    else if a[0] != b[0] then a[0] < b[0]
    else Less(a[1..], b[1..])
  }

  lemma {:induction false} LessIrreflexive(a: string)
    ensures !Less(a, a)
  {
    if |a| > 0 {
      LessIrreflexive(a[1..]);
    }
  }

  lemma {:induction false} LessTransitive(a: string, b: string, c: string)
    requires Less(a, b) && Less(b, c)
    ensures Less(a, c)
  {
    if |a| > 0 && a[0] == b[0] && b[0] == c[0] {
      LessTransitive(a[1..], b[1..], c[1..]);
    }
  }

  lemma {:induction false} LessConnected(a: string, b: string)
    requires a != b
    ensures Less(a, b) || Less(b, a)
  {
    if |a| > 0 && |b| > 0 && a[0] == b[0] {
      assert a == [a[0]] + a[1..] && b == [b[0]] + b[1..];
      LessConnected(a[1..], b[1..]);
    }
  }

  /** `a` is a proper prefix of `b`. */
  predicate ProperPrefix(a: string, b: string) {
    |a| < |b| && a == b[..|a|]
  }

  /** At the first position where `a` and `b` differ, `a` has the smaller code point. */
  predicate SmallerAtFirstDifference(a: string, b: string) {
    exists i :: 0 <= i < |a| && i < |b| && a[..i] == b[..i] && a[i] < b[i]
  }

  /** The usual reading of string order. */
  predicate PrefixOrFirstDifference(a: string, b: string) {
    ProperPrefix(a, b) || SmallerAtFirstDifference(a, b)
  }

  lemma DropSharedHeadPrefix(a: string, b: string)
    requires |a| > 0 && |b| > 0 && a[0] == b[0]
    ensures ProperPrefix(a, b) <==> ProperPrefix(a[1..], b[1..])
  {
    if ProperPrefix(a, b) {
      assert a[1..] == b[1..][..|a| - 1];
    }
    if ProperPrefix(a[1..], b[1..]) {
      assert a == [a[0]] + a[1..];
      assert b[..|a|] == [b[0]] + b[1..][..|a| - 1];
    }
  }

  lemma DropSharedHeadDifference(a: string, b: string)
    requires |a| > 0 && |b| > 0 && a[0] == b[0]
    ensures SmallerAtFirstDifference(a, b) <==> SmallerAtFirstDifference(a[1..], b[1..])
  {
    var a', b' := a[1..], b[1..];
    if SmallerAtFirstDifference(a', b') {
      var i :| 0 <= i < |a'| && i < |b'| && a'[..i] == b'[..i] && a'[i] < b'[i];
      assert a[..i + 1] == [a[0]] + a'[..i];
      assert b[..i + 1] == [b[0]] + b'[..i];
    }
    if SmallerAtFirstDifference(a, b) {
      var i :| 0 <= i < |a| && i < |b| && a[..i] == b[..i] && a[i] < b[i];
      assert a'[..i - 1] == a[..i][1..];
      assert b'[..i - 1] == b[..i][1..];
    }
  }

  /** `Less` is that reading. */
  lemma {:induction false} LessIffPrefixOrFirstDifference(a: string, b: string)
    ensures Less(a, b) <==> PrefixOrFirstDifference(a, b)
  {
    if |a| > 0 && |b| > 0 {
      if a[0] == b[0] {
        LessIffPrefixOrFirstDifference(a[1..], b[1..]);
        DropSharedHeadPrefix(a, b);
        DropSharedHeadDifference(a, b);
      } else if a[0] < b[0] {
        assert a[..0] == b[..0];
      }
    }
  }

  /** String comparison is a strict total order, so sorting labels is well defined. */
  lemma LessIsStrictTotalOrder()
    ensures StrictTotalOrder(Less)
  {
    forall x: string
      ensures !Less(x, x)
    {
      LessIrreflexive(x);
    }
    forall x: string, y: string, z: string | Less(x, y) && Less(y, z)
      ensures Less(x, z)
    {
      LessTransitive(x, y, z);
    }
    forall x: string, y: string | x != y
      ensures Less(x, y) || Less(y, x)
    {
      LessConnected(x, y);
    }
  }
}

=== FILE: rows.dfy ===
/**
  Report rows in ascending key order, as produced by Python's `sorted` over
  a dictionary's items. Keys of one dictionary are distinct, so comparing
  `(key, value)` pairs or comparing keys alone gives the same order.
 */
module Rows {
  import opened Order
  import opened Buckets

  /** Keys strictly increase along the rows. */
  ghost predicate Ascending<K>(s: Table<K>, less: (K, K) -> bool) {
    forall i, j :: 0 <= i < j < |s| ==> less(s[i].key, s[j].key)
  }

  /** Places `b` in front of the first row whose key is not below its own. */
  function Insert<K(==)>(b: Bucket<K>, s: Table<K>, less: (K, K) -> bool): (r: Table<K>)
    ensures multiset(r) == multiset(s) + multiset{b}
  {
    if s == [] then [b]
    else if less(s[0].key, b.key) then
      assert s == [s[0]] + s[1..];
      [s[0]] + Insert(b, s[1..], less)
    else [b] + s
  }

  lemma {:induction false} InsertAscending<K(!new)>(b: Bucket<K>, s: Table<K>, less: (K, K) -> bool)
    requires StrictTotalOrder(less)
    requires Ascending(s, less) && b.key !in Keys(s)
    ensures Ascending(Insert(b, s, less), less)
  {
    if s != [] {
      var r := Insert(b, s, less);
      assert b.key != s[0].key by { assert Keys(s)[0] == s[0].key; }
      if less(s[0].key, b.key) {
        var r' := Insert(b, s[1..], less);
        assert Keys(s) == [s[0].key] + Keys(s[1..]);
        InsertAscending(b, s[1..], less);
        assert r == [s[0]] + r';
        forall j | 0 <= j < |r'|
          ensures less(s[0].key, r'[j].key)
        {
          assert r'[j] in multiset(r');
          if r'[j] != b {
            assert r'[j] in multiset(s[1..]);
            var m :| 0 <= m < |s[1..]| && s[1..][m] == r'[j];
            assert s[m + 1] == r'[j];
          }
        }
      } else {
        assert less(b.key, s[0].key);
        assert r == [b] + s;
        forall j | 0 <= j < |s|
          ensures less(b.key, s[j].key)
        {
          if j > 0 {
            assert less(s[0].key, s[j].key);
          }
        }
      }
    }
  }

  /** A key absent from the rest of a table with distinct keys is absent after sorting it. */
  lemma FirstKeyNotInSortedRest<K>(t: Table<K>, rest: Table<K>)
    requires t != [] && DistinctKeys(t)
    requires multiset(rest) == multiset(t[1..])
    ensures t[0].key !in Keys(rest)
  {
    forall m | 0 <= m < |rest|
      ensures rest[m].key != t[0].key
    {
      assert rest[m] in multiset(t[1..]);
      var q :| 0 <= q < |t[1..]| && t[1..][q] == rest[m];
      assert t[q + 1] == rest[m];
    }
  }

  /** Insertion sort by key; it keeps exactly the rows it is given. */
  function SortByKey<K(==)>(t: Table<K>, less: (K, K) -> bool): (r: Table<K>)
    ensures multiset(r) == multiset(t)
  {
    if t == [] then []
    else
      assert t == [t[0]] + t[1..];
      Insert(t[0], SortByKey(t[1..], less), less)
  }

  /** Under a strict total order, sorting rows with distinct keys makes the keys strictly ascend. */
  lemma {:induction false} SortByKeyAscending<K(!new)>(t: Table<K>, less: (K, K) -> bool)
    requires StrictTotalOrder(less) && DistinctKeys(t)
    ensures Ascending(SortByKey(t, less), less)
  {
    if t != [] {
      var rest := SortByKey(t[1..], less);
      SortByKeyAscending(t[1..], less);
      FirstKeyNotInSortedRest(t, rest);
      InsertAscending(t[0], rest, less);
    }
  }

  /** Rows in strictly ascending key order are determined by which rows there are. */
  lemma {:induction false} AscendingUnique<K(!new)>(a: Table<K>, b: Table<K>, less: (K, K) -> bool)
    requires StrictTotalOrder(less)
    requires Ascending(a, less) && Ascending(b, less)
    requires forall x :: x in a <==> x in b
    ensures a == b
  {
    if a != [] {
      assert a[0] in a;
    }
    if b != [] {
      assert b[0] in b;
    }
    if a != [] && b != [] {
      var i :| 0 <= i < |b| && b[i] == a[0];
      var j :| 0 <= j < |a| && a[j] == b[0];
      if i != 0 {
        assert false;
      }
      forall x
        ensures x in a[1..] <==> x in b[1..]
      {
        if x in a[1..] {
          var m :| 1 <= m < |a| && a[m] == x;
          assert x != a[0] && x in b;
          var m' :| 0 <= m' < |b| && b[m'] == x;
          assert b[1..][m' - 1] == x;
        }
        if x in b[1..] {
          var m :| 1 <= m < |b| && b[m] == x;
          assert x != b[0] && x in a;
          var m' :| 0 <= m' < |a| && a[m'] == x;
          assert a[1..][m' - 1] == x;
        }
      }
      AscendingUnique(a[1..], b[1..], less);
      assert a == [a[0]] + a[1..] && b == [b[0]] + b[1..];
    }
  }

  /**
    Sorting forgets the insertion order: dictionaries with the same contents
    give the same sorted rows.
   */
  lemma SortedRowsDependOnContentsOnly<K(!new)>(t1: Table<K>, t2: Table<K>, less: (K, K) -> bool)
    requires StrictTotalOrder(less)
    requires DistinctKeys(t1) && DistinctKeys(t2)
    requires ToMap(t1) == ToMap(t2)
    ensures SortByKey(t1, less) == SortByKey(t2, less)
  {
    var s1, s2 := SortByKey(t1, less), SortByKey(t2, less);
    SameContentsSameBuckets(t1, t2);
    SortByKeyAscending(t1, less);
    SortByKeyAscending(t2, less);
    forall x
      ensures x in s1 <==> x in s2
    {
      assert x in s1 <==> x in multiset(s1);
      assert x in s2 <==> x in multiset(s2);
      assert x in multiset(t1) <==> x in t1;
      assert x in multiset(t2) <==> x in t2;
    }
    AscendingUnique(s1, s2, less);
  }
}

=== FILE: wrappers.dfy ===
/** Optional values, standing in for Python's `None` default arguments and results. */
module Wrappers {

  datatype Option<+T> = None | Some(value: T)
}
